=== FILE: README.md ===
# trisuite test selection, modelled in Dafny

trisuite is a unittest-based runner. Test functions carry metadata that the `tag`
decorator attaches: an optional product, an optional priority and a set of categories.
When a test case is added to a `FilterableTestSuite`, every `test_*` method goes
through three stages, in this order:

1. **product**: the target product, and whether shared (product-less) tests are skipped;
2. **priority**: the priority floor;
3. **category**: the category list, used as an exclusion list or an inclusion list.

The first stage that rejects a method replaces it, under its own name, with a
`unittest.skip` wrapper. The wrapper carries a `FilterReason` message, and a later run
reports that message.

The model covers:

- the tag metadata (`tags.dfy`, module `Tags`);
- the four decisions of `FilterSystem` and the skip reasons (`filters.dfy`, module `Filters`);
- the suite's own copies of those decisions, the ordered pipeline, the by-name
  `setattr` replacement and the `addTest` loop (`suite.dfy`, module `Suite`);
- concrete runs on the repository's own test fixtures (`scenarios.dfy`, module `Scenarios`).

`wrappers.dfy` holds `Option`.

Each Python behaviour is modelled as follows:

- **The TypeError.** When a priority floor is set, a tagged method without a priority
  makes `tags.priority < 0` compare `None` with an int. That TypeError is a verdict of
  its own, `Raise(NoneComparedWithInt)`. `addTest` propagates it, so the test object is
  left with the earlier methods already wrapped, and the test is not added.
- **The missing configuration.** The `assert` in `addTest` is the error
  `ConfigurationNotAvailable`.
- **Test objects.** A test case is the sequence of its attributes in `dir()` order.
  Each attribute is a non-callable value or a function with its outcome, either the
  original body (`Run`) or a skip wrapper with its reason (`Skipped`).
- **The wrapper keeps the tags.** `unittest.skip` uses `functools.wraps`, which copies
  `__name__` and `__dict__`, so the wrapper keeps the method's name and `tags`.
- **Truthiness.** A `MetaTag` object is always truthy, so `if tags` means "a tag is
  attached".

Both `framework/filters.py` and `framework/suite.py` declare `FilterReason`. The two
declarations are identical, so the model defines it once, in `Filters`.

The loop in `addTest` (`Suite.FilterMethods`) has a reference definition,
`Suite.FilterCase`: every attribute is settled independently, up to the first method that
raises. `FilterMethods` is proved equal to `FilterCase` for every test case with distinct
attribute names.

## Model

| member | source | states |
|---|---|---|
| Tags.Value | framework/tags.py:16-18 | Each member's value is a three-letter string, its own name; `Tags.ProductRoundTrip` and `Tags.ValueInjective` prove that the value determines the member |
| Tags.FromValue | framework/tags.py:13-18 | Lookup by value finds the member whose value is the given string, and fails exactly when no member has that value |
| Tags.ProductRoundTrip | framework/tags.py:13-18 | Every product is found again from its own value, and ACE, BME and STL are all the members |
| Tags.ValueInjective | framework/tags.py:13-18 | Two products have the same value exactly when they are the same product |
| Tags.NewMetaTag | framework/tags.py:4-10 | A new MetaTag has no product, no priority and no categories |
| Tags.Tag | framework/tags.py:21-44 | The decorator returns the same function with a tag attached; product and priority become this call's arguments, even when omitted; the categories become the old ones plus the new ones, exactly |
| Tags.TagKeepsCategories | framework/tags.py:32-43 | Tagging an already tagged function never removes a category |
| Tags.TagTwice | framework/tags.py:32-43 | Stacking two decorators equals one decorator with both category lists and the outer decorator's product and priority |
| Tags.TagIdempotent | framework/tags.py:32-43 | Applying the same decorator twice gives the same result as applying it once |
| Filters.Template | framework/filters.py:9-17 | Every skip message template starts with the "[Filter] " marker |
| Filters.TemplateIdentifiesMember | framework/filters.py:9-17 | Two reasons have the same template exactly when they are the same enumeration member |
| Filters.ByProduct | framework/filters.py:27-45 | Never raises, and skips only for a product reason. It passes exactly when the method is not a shared method with shared tests being skipped under a target, and names no product other than the target. So a method with the target's product passes whatever the shared setting, and an untagged or product-less method passes when shared tests are kept. It skips as shared exactly when a target is set, shared tests are skipped and the method names no product. It skips as product-specific exactly when the method names a product other than the target (any product, when there is no target), and the reason carries that product |
| Filters.ByPriority | framework/filters.py:47-61 | Passes exactly when the floor is at most 0 or the priority lies in 0..floor. Raises the TypeError exactly when the floor is positive and a tag without priority is attached. Skips as undefined exactly for an untagged method or a negative priority, and as a mismatch, carrying the priority, exactly when the priority is above the floor |
| Filters.ByBlacklist | framework/filters.py:63-79 | Skips exactly when exclusion mode is on, a tag is attached and its categories meet the list; the reason carries exactly the intersection |
| Filters.ByWhitelist | framework/filters.py:81-99 | Skips exactly when inclusion mode is on, the list is non-empty and the method is untagged or shares no category with the list |
| Filters.CategoryFiltersExclusive | framework/filters.py:63-99 | The blacklist and the whitelist never both skip the same method |
| Filters.CategoryFiltersComplementary | framework/filters.py:63-99 | For a tagged method and a non-empty list, exclusion skips exactly the methods that inclusion keeps |
| Filters.PriorityDisabled | framework/filters.py:52 | A floor of at most 0 never skips and never raises |
| Suite.ProductStage | framework/suite.py:75-90 | Never raises, and skips only with a product reason. A product skip carries the method's own product, which differs from the target. A shared skip needs a target, shared tests skipped and no product on the method. `StagesAgreeWithFilterSystem` proves it equal to `Filters.ByProduct` |
| Suite.PriorityStage | framework/suite.py:92-104 | A floor of at most 0 passes everything. A skip carries a priority reason, and a mismatch carries the method's priority, which is above the floor. It raises the TypeError exactly when the floor is positive and a tag without priority is attached. `StagesAgreeWithFilterSystem` proves it equal to `Filters.ByPriority` |
| Suite.BlacklistStage | framework/suite.py:106-117 | Skips exactly a tagged method that shares a category with the list, naming the shared categories; the exclusion mode is the caller's test. `StagesAgreeWithFilterSystem` proves it, in exclusion mode, equal to `Filters.ByBlacklist` |
| Suite.WhitelistStage | framework/suite.py:119-132 | With a non-empty list, skips exactly an untagged method or one sharing no category with the list; the inclusion mode is the caller's test. `StagesAgreeWithFilterSystem` proves it, in inclusion mode, equal to `Filters.ByWhitelist` |
| Suite.CategoryStage | framework/suite.py:66-71 | Never raises; a skip is a category skip, and it is a blacklist skip exactly in exclusion mode. `StagesAgreeWithFilterSystem` proves it equal to the `Filters` decision of the active mode |
| Suite.ProductStageAsWritten | framework/suite.py:75-90 | `_filter_by_product` with the `--product` string as the target. It never raises. Whenever a target is given, every method that names a product is excluded as product-specific, carrying that product. It skips as shared exactly when a target is given, shared tests are skipped and the method names no product. Without a target it decides as `Suite.ProductStage` does |
| Suite.ConfiguredProductNeverMatches | framework/suite.py:84 | As written, with the `--product` string as the target, a method tagged with exactly that product is still excluded as product-specific |
| Suite.TargetOf | framework/config.py:33-36 | Converts each accepted `--product` value to the product with that value, and no value to no target |
| Suite.ConfiguredTargetKeepsItsTests | framework/suite.py:84 | With the target converted, a method tagged with the requested product passes the product stage |
| Suite.AsWrittenDiffersOnlyOnRequestedProduct | framework/suite.py:75-90 | The string comparison and the converted one disagree exactly on a method tagged with the requested product |
| Suite.StagesAgreeWithFilterSystem | framework/suite.py:75-132 | The suite's copies of the product, priority, blacklist and whitelist decisions agree case for case with FilterSystem's; in each mode the other mode's category filter passes |
| Suite.Decide | framework/suite.py:56-71 | A method passes only when all three stages pass. A skip comes from the stage its reason belongs to, and every earlier stage passed. An exception comes from the priority stage, after the product stage passed |
| Suite.ProductSkipIgnoresLaterStages | framework/suite.py:60-61 | Once the product stage skips, no priority or category setting changes the verdict |
| Suite.PriorityStopIgnoresCategoryStage | framework/suite.py:63-64 | Once the priority stage skips or raises, no category setting changes the verdict |
| Suite.UntaggedSkippedAsShared | framework/suite.py:78-80 | With a target set and shared tests skipped, an untagged method is skipped as shared |
| Suite.PriorityStageStopsIff | framework/suite.py:92-104 | After the product stage passes and with a positive floor, the priority stage stops a method exactly when its priority is missing, negative or above the floor |
| Suite.IndexFrom | framework/suite.py:57 | Lookup by name finds the first attribute with that name, and fails only when no attribute has it |
| Suite.SetAttr | framework/suite.py:169 | Setting an attribute by name replaces the attribute with that name, at its own position, and changes nothing else; distinct names stay distinct |
| Suite.SkipWrapper | framework/suite.py:173-178 | The skip wrapper keeps the method's function, and with it the name and tags, and reports the reason |
| Suite.MarkForSkip | framework/suite.py:167-170 | The method is replaced, at its own position and under its own name, by its skip wrapper; no other attribute changes |
| Suite.CandidatesFrom | framework/suite.py:54 | Lists the positions of the callable `test_*` attributes in dir() order: each listed one is such an attribute, the positions increase, and none is missed |
| Suite.TestMethods | framework/suite.py:54 | A name is listed exactly when some callable attribute with that name starts with `test_`; the names follow dir() order |
| Suite.Settle | framework/suite.py:56-71 | Settling an attribute keeps its name and function. It changes the attribute only when it is a test method the pipeline skips, and then it becomes a skip wrapper with the pipeline's reason |
| Suite.FirstRaise | framework/suite.py:56-71 | Finds the first attribute in dir() order on which the pipeline raises, or reports that none raises |
| Suite.FilterCase | framework/suite.py:53-71 | Filtering completes exactly when no test method raises, and then every attribute is settled. Otherwise it stops at the first raising method, with that method's error: earlier attributes are settled, and it and later ones are untouched. Names, functions and tags never change |
| Suite.OnlySkippedCandidatesChange | framework/suite.py:53-71 | Non-test attributes and methods that every stage passes are left as they are; a changed attribute is the method's skip wrapper with the pipeline's reason |
| Suite.SettleIdempotent | framework/suite.py:56-71 | Settling twice is settling once, and settling does not change whether the pipeline raises |
| Suite.FilterCaseIdempotent | framework/suite.py:53-71 | Filtering an already filtered test case with the same configuration gives the same result and the same exception |
| Suite.VisitMethod | framework/suite.py:57-71 | One loop iteration looks the method up by name, runs the pipeline and wraps a skipped method. On an exception, filtering stops at this method with the object as the earlier iterations left it |
| Suite.FilterMethods | framework/suite.py:53-71 | The loop over the listed test methods computes exactly the reference filtering of the test case |
| Suite.AddTest | framework/suite.py:36-73 | Fails the configuration assertion when there is no configuration. Any other object goes to `TestSuite.addTest`: a TestCase or TestSuite class that was never instantiated raises a TypeError, so does an object that is not callable, and any other object is added unchanged. Adds a test case after filtering it, unless a method raises; then the suite is unchanged and the error comes with the partially wrapped test case |
| Scenarios.UnitANamesDistinct | unit_tests/package_a/test_a.py:7-18 | The modelled TestUnitA attribute table has distinct names |
| Scenarios.UnitAOneParamSkipped | unit_tests/package_a/test_a.py:9 | With a floor of 5, the untagged test_one_param is skipped because it defines no priority, and the non-test attributes before it are untouched |
| Scenarios.UnitAThreeParamsRaises | unit_tests/package_a/test_a.py:16-17 | With a floor of 5, test_three_params, tagged "Weekly" without a priority, raises the TypeError |
| Scenarios.UnitAWithPriorityFloorRaises | unit_tests/package_a/test_a.py:9-18 | Filtering TestUnitA with a floor of 5 stops at test_three_params with the TypeError, after test_one_param was already wrapped |
| Scenarios.ComponentBNamesDistinct | component_tests/cpackage_b/test_b.py:7-17 | The modelled TestComponentB attribute table has distinct names |
| Scenarios.ComponentBSettles | component_tests/cpackage_b/test_b.py:9-17 | With "Long-running" excluded and no target, no method raises; the untagged method runs, the shared one is skipped with the matched category, and the ACE one is skipped as product-specific |
| Scenarios.ComponentBExcludingLongRunning | component_tests/cpackage_b/test_b.py:9-17 | Filtering TestComponentB with "Long-running" excluded and no target completes with exactly those three outcomes |
| Scenarios.SharedPriorityOneRuns | framework/suite.py:92-104 | A shared "Nightly" test of priority 1 runs under a floor of 5 |
| Scenarios.ProductTestWithoutTargetSkipped | framework/suite.py:86-88 | Without a target product, an ACE-specific test is skipped as product-specific, whatever the other settings |
| Scenarios.UntaggedRunsForTargetKeepingShared | framework/suite.py:78-85 | An untagged test runs when BME is targeted, shared tests are kept and priorities are off |
| Scenarios.ExcludedCategoryNamesMatch | framework/suite.py:106-117 | A "Weekly" "Long-running" test is skipped when "Long-running" is excluded, and the reason names only that category |

## Findings

| source | as written | input that shows it | evidently intended | confidence | as-written member | corrected member |
|---|---|---|---|---|---|---|
| framework/suite.py:84 | `tags.product != filter_product` compares a `ProductTag` member with the `--product` string that `get_product` returns (`framework/config.py:76-78`); an enumeration member never equals a string | `--product ACE` and a method decorated `@tag(product=ProductTag.ACE)`: it is skipped as "Product-specific test" | a method tagged with the requested product runs | medium, not executed: `suite.py` imports a `BaseConfiguration` that `config.py` does not define, so the target's type is inferred from `SuiteConfig` | Suite.ConfiguredProductNeverMatches | Suite.ConfiguredTargetKeepsItsTests |

`Suite.ProductStageAsWritten` models the comparison as written. `Suite.TargetOf` converts the
string, and every `Policy` in the rest of the model holds the converted target.
`Suite.AsWrittenDiffersOnlyOnRequestedProduct` shows that the two differ only on methods
tagged with the requested product. The same comparison appears again at
`framework/filters.py:39`.

## Left out

- The resolved configuration is a `Policy` value: target product, shared-skip flag,
  priority floor, exclusion flag and category set. `framework/config.py` is not part of
  this model: argument parsing, `BaseConfiguration` and `_nargs_to_readonly_container`.
  Its getters are read once per `addTest` call, as the source does.
- `Policy.excluded` is a boolean. The source reads `self._config.is_excluded` as an
  attribute and never calls it (`framework/suite.py:47`, `framework/filters.py:66`,
  `framework/filters.py:84`), while every other setting is read through a call
  (`get_product()`, `is_shared_skipped()`, `get_priority()`, `get_categories()`). The model
  assumes the configuration exposes `is_excluded` as a boolean attribute or property.
  `BaseConfiguration` is not part of this model. If `is_excluded` were a method like
  `is_shared_skipped`, the bound method would always be truthy: `addTest` would always
  take the blacklist branch (`framework/suite.py:66`), and `filter_by_whitelist` would
  always return at `framework/filters.py:84`. That reading is not modelled.
- A `Policy` holds the target as a `ProductTag` member, converted from the `--product`
  string by `Suite.TargetOf`. The source compares the tag's product with the target at
  `framework/suite.py:84` and `framework/filters.py:39`. It receives the target from
  `get_product`, which returns the argparse string (`framework/config.py:33-36`,
  `framework/config.py:76-78`), with no conversion. See "## Findings".
- `framework/controller.py`, `framework/__init__.py` (logging setup) and `__main__.py`
  are outside this model. The controller calls a `set_filters` the suite does not
  define, and `__main__.py` imports a `SuiteController` that does not exist.
- `FilterableTestSuite.set_config` is the `config` parameter of `Suite.AddTest`. The
  class-level variable it sets is not modelled as state.
- The `FilterSystem` constructor and the loggers only store references and log, so they
  are left out.
- Formatting a reason with `str.format` is not rendered into a string. A reason keeps
  its template (`Filters.Template`) and the values formatted into it (found product,
  found priority, matched categories). How Python prints a set or an enum member is not
  modelled.
- The value `_mark_for_skip` in `framework/suite.py` returns is never used by its
  callers, so it is not modelled.
- Running the tests (`unittest.skip` at run time, the test bodies, the result report)
  is not modelled. A skip wrapper is the outcome `Skipped(reason)`.
- Object identity is not modelled. `tag` mutates the `MetaTag` already attached to the
  function, which matters only when two functions share one `MetaTag` object. The model
  treats tags as values.
- Suite.SetAttr: an absent name is appended at the end. `dir()` would list a new
  attribute in sorted position, and that position is not modelled. `_mark_for_skip` only
  passes names that are present, so the filtering never reaches this case.
- `unittest.TestSuite.addTest` is not part of this model beyond its two input checks: a
  `TestCase` or `TestSuite` class is refused, then a non-callable object is refused. A
  `TestCase` instance is callable, so it passes both.
- `Suite.AddTest`: requires distinct attribute names. Python objects have them, so this
  is a representation invariant of the modelled attribute table. It also assumes every
  method's `__name__` equals the attribute it is stored under, because `setattr` uses
  `__name__`. An aliased method (`test_b = test_a`) is not modelled.
- Under `python -O` the configuration `assert` is stripped, and `None` then fails
  elsewhere. The model keeps the assertion.
- `callable(getattr(test, func))` is true for every function attribute and false for
  every `Plain` attribute. Callable non-function objects and properties are not
  distinguished.

=== FILE: filters.dfy ===
/**
 * The four per-dimension filter decisions of `FilterSystem`, each a pure
 * function of the method's tag (or its absence) and the run's policy,
 * together with the skip reasons they choose.
 */
module Filters {
  import opened Wrappers
  import opened Tags

  /** `FilterReason`: one constructor per message template, with the values formatted into it. */
  datatype FilterReason =
    | ProductExcluded(foundProduct: Product)
    | SharedExcluded
    | PriorityUndefined
    | PriorityMismatch(foundPriority: int)
    | CategoryBlacklist(matches: set<string>)
    | CategoryWhitelist

  /** Position of the reason's member in the enumeration. */
  function Ordinal(r: FilterReason): nat {
    match r
    case ProductExcluded(_) => 0
    case SharedExcluded => 1
    case PriorityUndefined => 2
    case PriorityMismatch(_) => 3
    case CategoryBlacklist(_) => 4
    case CategoryWhitelist => 5
  }

  /** Every message published for a skipped test starts with this marker. */
  const Marker := "[Filter] "

  /** The members' format strings, in enumeration order. */
  const Templates: seq<string> := [
    Marker + "Product-specific test (Found:{found})",
    Marker + "General product test",
    Marker + "No priority defined",
    Marker + "Priority lower than filter (Found:{found})",
    Marker + "Category in exclusion list (Matched:{matches})",
    Marker + "Category not in inclusion list"
  ]

  /** The format string of the reason's member. */
  function Template(r: FilterReason): (t: string)
    ensures Marker <= t
  {
    Templates[Ordinal(r)]
  }

  /** The template determines the member, and the member determines the template. */
  lemma TemplateIdentifiesMember(r1: FilterReason, r2: FilterReason)
    ensures Template(r1) == Template(r2) <==> Ordinal(r1) == Ordinal(r2)
  {
    var lengths := [46, 29, 28, 51, 55, 39];
    assert forall i :: 0 <= i < 6 ==> |Templates[i]| == lengths[i];
  }

  /** Exceptions the modelled code can raise. */
  datatype Error =
    | NoneComparedWithInt        // TypeError: `None < 0` on an unprioritised tag
    | ConfigurationNotAvailable  // AssertionError raised by `addTest` without configuration
    | UninstantiatedTest         // TypeError from `TestSuite.addTest`: a TestCase or TestSuite class
    | NotCallable                // TypeError from `TestSuite.addTest`: an object that is not callable

  /** A filter's decision: the method passes, is skipped, or the filter raises. */
  datatype Verdict = Pass | Skip(reason: FilterReason) | Raise(error: Error)

  /**
   * The resolved run configuration: target product, whether shared tests
   * are skipped, the priority floor (at most 0 disables it), whether the
   * category set is an exclusion list, and the category set.
   */
  datatype Policy = Policy(target: Option<Product>, skipShared: bool, floor: int, excluded: bool, cats: set<string>)

  /** A tag is attached and names a product. */
  predicate HasProduct(tags: Option<MetaTag>) {
    tags.Some? && tags.value.product.Some?
  }

  /** `FilterSystem.filter_by_product` */
  function ByProduct(tags: Option<MetaTag>, p: Policy): (v: Verdict)
    ensures v.Pass? || v.Skip?
    ensures v.Skip? ==> v.reason.SharedExcluded? || v.reason.ProductExcluded?
    ensures v == Pass <==>
              && (p.target.None? || !p.skipShared || HasProduct(tags))
              && (!HasProduct(tags) || tags.value.product == p.target)
    ensures v == Skip(SharedExcluded) <==> p.target.Some? && p.skipShared && !HasProduct(tags)
    ensures (v.Skip? && v.reason.ProductExcluded?) <==> HasProduct(tags) && tags.value.product != p.target
    ensures v.Skip? && v.reason.ProductExcluded? ==> v.reason.foundProduct == tags.value.product.value
  {
    if p.target.Some? then
      if tags.None? && p.skipShared then Skip(SharedExcluded)
      else if tags.Some? then
        if tags.value.product.None? && p.skipShared then Skip(SharedExcluded)
        else if tags.value.product.Some? && tags.value.product.value != p.target.value then
          Skip(ProductExcluded(tags.value.product.value))
        else Pass
      else Pass
    else if tags.Some? && tags.value.product.Some? then
      Skip(ProductExcluded(tags.value.product.value))
    else Pass
  }

  /** `FilterSystem.filter_by_priority`; comparing an absent priority with 0 raises. */
  function ByPriority(tags: Option<MetaTag>, p: Policy): (v: Verdict)
    ensures v == Pass <==> p.floor <= 0 || (tags.Some? && tags.value.priority.Some? && 0 <= tags.value.priority.value <= p.floor)
    ensures v.Raise? <==> p.floor > 0 && tags.Some? && tags.value.priority.None?
    ensures v.Raise? ==> v.error == NoneComparedWithInt
    ensures v == Skip(PriorityUndefined) <==> p.floor > 0 && (tags.None? || (tags.value.priority.Some? && tags.value.priority.value < 0))
    ensures v.Skip? ==> v.reason == PriorityUndefined || v.reason.PriorityMismatch?
    ensures (v.Skip? && v.reason.PriorityMismatch?) <==>
            p.floor > 0 && tags.Some? && tags.value.priority.Some? && tags.value.priority.value > p.floor
    ensures v.Skip? && v.reason.PriorityMismatch? ==> v.reason.foundPriority == tags.value.priority.value
  {
    if p.floor > 0 then
      if tags.None? then Skip(PriorityUndefined)
      else match tags.value.priority
        case None => Raise(NoneComparedWithInt)
        case Some(q) =>
          if q < 0 then Skip(PriorityUndefined)
          else if q > p.floor then Skip(PriorityMismatch(q))
          else Pass
    else Pass
  }

  /** `FilterSystem.filter_by_blacklist`: the reason carries exactly the matched categories. */
  function ByBlacklist(tags: Option<MetaTag>, p: Policy): (v: Verdict)
    ensures v.Pass? || v.Skip?
    ensures v.Skip? <==> p.excluded && tags.Some? && tags.value.categories * p.cats != {}
    ensures v.Skip? ==> v.reason == CategoryBlacklist(tags.value.categories * p.cats)
  {
    if !p.excluded then Pass
    else if |p.cats| == 0 then Pass
    else if tags.Some? && |tags.value.categories * p.cats| > 0 then
      Skip(CategoryBlacklist(tags.value.categories * p.cats))
    else Pass
  }

  /** `FilterSystem.filter_by_whitelist` */
  function ByWhitelist(tags: Option<MetaTag>, p: Policy): (v: Verdict)
    ensures v.Pass? || v.Skip?
    ensures v.Skip? <==> !p.excluded && p.cats != {} && (tags.None? || tags.value.categories * p.cats == {})
    ensures v.Skip? ==> v.reason == CategoryWhitelist
  {
    if p.excluded then Pass
    else if |p.cats| == 0 then Pass
    else if tags.None? then Skip(CategoryWhitelist)
    else if |tags.value.categories * p.cats| == 0 then Skip(CategoryWhitelist)
    else Pass
  }

  /** Under one policy the blacklist and the whitelist never both skip. */
  lemma CategoryFiltersExclusive(tags: Option<MetaTag>, p: Policy)
    ensures !(ByBlacklist(tags, p).Skip? && ByWhitelist(tags, p).Skip?)
  {
  }

  /**
   * For a tagged method and a non-empty category set, exclusion skips
   * exactly the methods inclusion keeps.
   */
  lemma CategoryFiltersComplementary(t: MetaTag, p: Policy)
    requires p.cats != {}
    ensures ByBlacklist(Some(t), p.(excluded := true)).Skip? <==> t.categories * p.cats != {}
    ensures ByWhitelist(Some(t), p.(excluded := false)).Skip? <==> t.categories * p.cats == {}
  {
  }

  /** A floor of at most 0 never skips. */
  lemma PriorityDisabled(tags: Option<MetaTag>, p: Policy)
    requires p.floor <= 0
    ensures ByPriority(tags, p) == Pass
  {
  }
}

=== FILE: scenarios.dfy ===
/**
 * Concrete runs of the pipeline on the repository's own test fixtures, and
 * on single methods under typical policies.
 */
module Scenarios {
  import opened Wrappers
  import opened Tags
  import opened Filters
  import opened Suite

  /** A policy with no target, no floor and no category filter. */
  const Open := Policy(None, false, 0, false, {})

  /** An untagged function. */
  function Untagged(name: string): TestFunction {
    TestFunction(name, None)
  }

  /** `TestUnitA`, in the sorted order of `dir()`, with two of the attributes `TestCase` itself contributes. */
  function UnitA(): seq<Attr> {
    [ Callable(Untagged("assertEqual"), Run),
      Attr.Plain("longMessage"),
      Callable(Untagged("test_one_param"), Run),
      Callable(Tag(Untagged("test_three_params"), ["Weekly"], None, None), Run),
      Callable(Tag(Untagged("test_two_params"), ["Nightly"], None, Some(10)), Run) ]
  }

  /** The attribute names of `TestUnitA` are distinct. */
  lemma UnitANamesDistinct()
    ensures DistinctNames(UnitA())
  {
  }

  /** Under a floor of 5 the untagged `test_one_param` is skipped for lacking a priority. */
  lemma UnitAOneParamSkipped()
    ensures !Raises(UnitA()[0], Open.(floor := 5)) && !Raises(UnitA()[1], Open.(floor := 5))
    ensures Settle(UnitA()[0], Open.(floor := 5)) == UnitA()[0]
    ensures Settle(UnitA()[1], Open.(floor := 5)) == UnitA()[1]
    ensures Decide(UnitA()[2].fn.tags, Open.(floor := 5)) == Skip(PriorityUndefined)
    ensures Settle(UnitA()[2], Open.(floor := 5)) == Callable(Untagged("test_one_param"), Skipped(PriorityUndefined))
  {
    assert !IsTestName("assertEqual") by {
      assert "assertEqual"[0] != "test_"[0];
    }
    assert !IsCandidate(UnitA()[0]);
  }

  /** Under a floor of 5 `test_three_params`, tagged without a priority, raises. */
  lemma UnitAThreeParamsRaises()
    ensures Raises(UnitA()[3], Open.(floor := 5))
    ensures Decide(UnitA()[3].fn.tags, Open.(floor := 5)) == Raise(NoneComparedWithInt)
  {
    assert UnitA()[3].fn.tags.value.priority == None;
  }

  /**
   * With a priority floor, `test_three_params` (tagged without a priority)
   * makes the priority stage compare None with 0: the loop stops there with
   * a TypeError, after the untagged `test_one_param` was already wrapped.
   */
  lemma UnitAWithPriorityFloorRaises()
    ensures FilterCase(UnitA(), Open.(floor := 5))
         == Aborted(NoneComparedWithInt, 3, UnitA()[2 := Callable(Untagged("test_one_param"), Skipped(PriorityUndefined))])
  {
    var p := Open.(floor := 5);
    var attrs := UnitA();
    UnitAOneParamSkipped();
    UnitAThreeParamsRaises();
    RaiseStep(attrs, p, 3);
    var expected := attrs[2 := Settle(attrs[2], p)];
    forall i | 0 <= i < |attrs|
      ensures Partial(attrs, p, 3)[i] == expected[i]
    {
    }
    assert Partial(attrs, p, 3) == expected;
  }

  /** `TestComponentB`, in `dir()` order. */
  function ComponentB(): seq<Attr> {
    [ Callable(Untagged("test_one_negative_param"), Run),
      Callable(Tag(Untagged("test_three_params"), ["Weekly", "Long-running"], None, Some(2)), Run),
      Callable(Tag(Untagged("test_two_negative_params"), ["Weekly", "Long-running"], Some(ACE), None), Run) ]
  }

  /** The attribute names of `TestComponentB` are distinct. */
  lemma ComponentBNamesDistinct()
    ensures DistinctNames(ComponentB())
  {
  }

  /** Excluding "Long-running" without a target product. */
  const ExcludeLongRunning := Open.(excluded := true, cats := {"Long-running"})

  /** What each method of `TestComponentB` settles to under `ExcludeLongRunning`. */
  lemma ComponentBSettles()
    ensures forall i :: 0 <= i < 3 ==> !Raises(ComponentB()[i], ExcludeLongRunning)
    ensures Settle(ComponentB()[0], ExcludeLongRunning) == ComponentB()[0]
    ensures Settle(ComponentB()[1], ExcludeLongRunning)
         == ComponentB()[1].(outcome := Skipped(CategoryBlacklist({"Long-running"})))
    ensures Settle(ComponentB()[2], ExcludeLongRunning)
         == ComponentB()[2].(outcome := Skipped(ProductExcluded(ACE)))
  {
    var t := ComponentB()[1].fn.tags.value;
    assert t.categories * ExcludeLongRunning.cats == {"Long-running"};
    assert Decide(ComponentB()[1].fn.tags, ExcludeLongRunning) == Skip(CategoryBlacklist({"Long-running"}));
    assert Decide(ComponentB()[2].fn.tags, ExcludeLongRunning) == Skip(ProductExcluded(ACE));
  }

  /**
   * Excluding "Long-running" without a target product: the untagged method
   * runs, the shared long-running one is skipped with exactly the matched
   * category, and the ACE-specific one is skipped at the product stage.
   */
  lemma ComponentBExcludingLongRunning()
    ensures FilterCase(ComponentB(), ExcludeLongRunning)
         == Filtered([ ComponentB()[0],
                       ComponentB()[1].(outcome := Skipped(CategoryBlacklist({"Long-running"}))),
                       ComponentB()[2].(outcome := Skipped(ProductExcluded(ACE))) ])
  {
    var attrs := ComponentB();
    ComponentBSettles();
    CompleteStep(attrs, ExcludeLongRunning);
    var expected := [ ComponentB()[0],
                      ComponentB()[1].(outcome := Skipped(CategoryBlacklist({"Long-running"}))),
                      ComponentB()[2].(outcome := Skipped(ProductExcluded(ACE))) ];
    forall i | 0 <= i < 3
      ensures Partial(attrs, ExcludeLongRunning, 3)[i] == expected[i]
    {
    }
    assert Partial(attrs, ExcludeLongRunning, 3) == expected;
  }

  /** A shared nightly test of priority 1 runs when nothing is filtered but a floor of 5. */
  lemma SharedPriorityOneRuns()
    ensures Decide(Some(MetaTag(None, Some(1), {"Nightly"})), Open.(floor := 5)) == Pass
  {
  }

  /** An ACE-specific test is skipped at the product stage when no target is requested, whatever else is set. */
  lemma ProductTestWithoutTargetSkipped(p: Policy)
    requires p.target.None?
    ensures Decide(Some(MetaTag(Some(ACE), None, {})), p) == Skip(ProductExcluded(ACE))
  {
  }

  /** An untagged test runs when BME is targeted, shared tests are kept and priorities are off. */
  lemma UntaggedRunsForTargetKeepingShared()
    ensures Decide(None, Open.(target := Some(BME))) == Pass
  {
  }

  /** A weekly long-running test is skipped when "Long-running" is excluded, naming only that category. */
  lemma ExcludedCategoryNamesMatch()
    ensures Decide(Some(MetaTag(None, None, {"Weekly", "Long-running"})), Open.(excluded := true, cats := {"Long-running"}))
         == Skip(CategoryBlacklist({"Long-running"}))
  {
    assert {"Weekly", "Long-running"} * {"Long-running"} == {"Long-running"};
  }
}

=== FILE: suite.dfy ===
/**
 * `FilterableTestSuite.addTest`: enumerate the `test_*` methods of a test
 * case, run the stages product, priority, category on each with the first
 * skip winning, and replace every skipped method, under its own name, by a
 * skip wrapper carrying the reason.
 */
module Suite {
  import opened Wrappers
  import opened Tags
  import opened Filters

  // ---------------------------------------------------------------------
  // The suite's own copies of the stage decisions
  // ---------------------------------------------------------------------

  /**
   * `_filter_by_product`: it never raises, and it skips only for a product
   * reason, carrying the method's own product when that differs from the target.
   */
  function ProductStage(tags: Option<MetaTag>, target: Option<Product>, skipShared: bool): (v: Verdict)
    ensures v.Pass? || (v.Skip? && StageOf(v.reason) == 0)
    ensures v.Skip? && v.reason.ProductExcluded? ==>
              tags.Some? && tags.value.product == Some(v.reason.foundProduct) && target != tags.value.product
    ensures v == Skip(SharedExcluded) ==> target.Some? && skipShared && (tags.None? || tags.value.product.None?)
  {
    if target.Some? then
      if tags.None? && skipShared then Skip(SharedExcluded)
      else if tags.Some? then
        if tags.value.product.None? && skipShared then Skip(SharedExcluded)
        else if tags.value.product.Some? && tags.value.product.value != target.value then
          Skip(ProductExcluded(tags.value.product.value))
        else Pass
      else Pass
    else if tags.Some? && tags.value.product.Some? then
      Skip(ProductExcluded(tags.value.product.value))
    else Pass
  }

  /**
   * `_filter_by_priority`: a floor of at most 0 passes everything; a skip
   * has a priority reason; the only exception is comparing an absent
   * priority with 0.
   */
  function PriorityStage(tags: Option<MetaTag>, floor: int): (v: Verdict)
    ensures floor <= 0 ==> v == Pass
    ensures v.Skip? ==> StageOf(v.reason) == 1
    ensures v.Skip? && v.reason.PriorityMismatch? ==>
              tags.Some? && tags.value.priority == Some(v.reason.foundPriority) && v.reason.foundPriority > floor
    ensures v.Raise? <==> floor > 0 && tags.Some? && tags.value.priority.None?
    ensures v.Raise? ==> v.error == NoneComparedWithInt
  {
    if floor > 0 then
      if tags.None? then Skip(PriorityUndefined)
      else match tags.value.priority
        case None => Raise(NoneComparedWithInt)
        case Some(q) =>
          if q < 0 then Skip(PriorityUndefined)
          else if q > floor then Skip(PriorityMismatch(q))
          else Pass
    else Pass
  }

  /**
   * `_filter_by_blacklist`, whose exclusion mode is checked by the caller:
   * it skips exactly a tagged method sharing a category with the list, and
   * names the shared categories.
   */
  function BlacklistStage(tags: Option<MetaTag>, cats: set<string>): (v: Verdict)
    ensures v.Pass? || v.Skip?
    ensures v.Skip? <==> tags.Some? && tags.value.categories * cats != {}
    ensures v.Skip? ==> v.reason == CategoryBlacklist(tags.value.categories * cats)
  {
    if |cats| == 0 then Pass
    else if tags.Some? && |tags.value.categories * cats| > 0 then
      Skip(CategoryBlacklist(tags.value.categories * cats))
    else Pass
  }

  /**
   * `_filter_by_whitelist`, whose inclusion mode is checked by the caller:
   * with a non-empty list it skips exactly an untagged method or one sharing
   * no category with the list.
   */
  function WhitelistStage(tags: Option<MetaTag>, cats: set<string>): (v: Verdict)
    ensures v.Pass? || v.Skip?
    ensures v.Skip? <==> cats != {} && (tags.None? || tags.value.categories * cats == {})
    ensures v.Skip? ==> v.reason == CategoryWhitelist
  {
    if |cats| == 0 then Pass
    else if tags.None? then Skip(CategoryWhitelist)
    else if |tags.value.categories * cats| == 0 then Skip(CategoryWhitelist)
    else Pass
  }

  /**
   * The category stage: the blacklist in exclusion mode, the whitelist
   * otherwise.  It never raises, and the mode decides which category
   * reason a skip carries.
   */
  function CategoryStage(tags: Option<MetaTag>, p: Policy): (v: Verdict)
    ensures v.Pass? || (v.Skip? && StageOf(v.reason) == 2)
    ensures v.Skip? ==> (v.reason.CategoryBlacklist? <==> p.excluded)
  {
    if p.excluded then BlacklistStage(tags, p.cats) else WhitelistStage(tags, p.cats)
  }

  /**
   * The suite's stage copies decide case for case as `FilterSystem` does;
   * in each mode the category filter of the other mode passes.
   */
  lemma StagesAgreeWithFilterSystem(tags: Option<MetaTag>, p: Policy)
    ensures ProductStage(tags, p.target, p.skipShared) == ByProduct(tags, p)
    ensures PriorityStage(tags, p.floor) == ByPriority(tags, p)
    ensures p.excluded ==> CategoryStage(tags, p) == ByBlacklist(tags, p) && ByWhitelist(tags, p) == Pass
    ensures !p.excluded ==> CategoryStage(tags, p) == ByWhitelist(tags, p) && ByBlacklist(tags, p) == Pass
  {
  }

  // ---------------------------------------------------------------------
  // The configured product
  // ---------------------------------------------------------------------

  /** A value argparse accepts for `--product`: one of the enumeration's values. */
  predicate IsProductChoice(arg: string) {
    FromValue(arg).Some?
  }

  /**
   * `_filter_by_product` with the target as the command line delivers it, a
   * string.  `tags.product != filter_product` then compares a `ProductTag`
   * member with a `str`, which Python never finds equal, so every
   * product-specific method is excluded.
   */
  function ProductStageAsWritten(tags: Option<MetaTag>, arg: Option<string>, skipShared: bool): (v: Verdict)
    requires arg.Some? ==> IsProductChoice(arg.value)
    ensures v.Pass? || v.Skip?
    ensures arg.Some? && HasProduct(tags) ==> v == Skip(ProductExcluded(tags.value.product.value))
    ensures v == Skip(SharedExcluded) <==> arg.Some? && skipShared && !HasProduct(tags)
    ensures arg.None? ==> v == ProductStage(tags, None, skipShared)
  {
    if arg.Some? then
      if tags.None? && skipShared then Skip(SharedExcluded)
      else if tags.Some? then
        if tags.value.product.None? && skipShared then Skip(SharedExcluded)
        else if tags.value.product.Some? then Skip(ProductExcluded(tags.value.product.value))
        else Pass
      else Pass
    else if tags.Some? && tags.value.product.Some? then
      Skip(ProductExcluded(tags.value.product.value))
    else Pass
  }

  /**
   * Under the string target, a method tagged with exactly the requested
   * product is still excluded as product-specific.
   */
  lemma ConfiguredProductNeverMatches(p: Product, priority: Option<int>, cats: set<string>, skipShared: bool)
    ensures IsProductChoice(Value(p))
    ensures ProductStageAsWritten(Some(MetaTag(Some(p), priority, cats)), Some(Value(p)), skipShared)
         == Skip(ProductExcluded(p))
  {
    ProductRoundTrip(p);
  }

  /** The target product the `--product` string names, `ProductTag(arg)`. */
  function TargetOf(arg: Option<string>): (t: Option<Product>)
    requires arg.Some? ==> IsProductChoice(arg.value)
    ensures t.Some? <==> arg.Some?
    ensures t.Some? ==> Value(t.value) == arg.value
  {
    if arg.None? then None else FromValue(arg.value)
  }

  /** With the target converted, a method tagged with the requested product passes the product stage. */
  lemma ConfiguredTargetKeepsItsTests(p: Product, priority: Option<int>, cats: set<string>, skipShared: bool)
    ensures IsProductChoice(Value(p))
    ensures ProductStage(Some(MetaTag(Some(p), priority, cats)), TargetOf(Some(Value(p))), skipShared) == Pass
  {
    ProductRoundTrip(p);
  }

  /**
   * The string comparison and the converted one disagree exactly on a
   * method tagged with the requested product.
   */
  lemma AsWrittenDiffersOnlyOnRequestedProduct(tags: Option<MetaTag>, arg: Option<string>, skipShared: bool)
    requires arg.Some? ==> IsProductChoice(arg.value)
    ensures ProductStageAsWritten(tags, arg, skipShared) != ProductStage(tags, TargetOf(arg), skipShared)
        <==> arg.Some? && HasProduct(tags) && tags.value.product == TargetOf(arg)
  {
  }

  // ---------------------------------------------------------------------
  // The ordered pipeline for one method
  // ---------------------------------------------------------------------

  /** The stage a reason belongs to: 0 product, 1 priority, 2 category. */
  function StageOf(r: FilterReason): nat {
    match r
    case ProductExcluded(_) => 0
    case SharedExcluded => 0
    case PriorityUndefined => 1
    case PriorityMismatch(_) => 1
    case CategoryBlacklist(_) => 2
    case CategoryWhitelist => 2
  }

  /** The verdict of stage `s` for a method. */
  function StageVerdict(tags: Option<MetaTag>, p: Policy, s: nat): Verdict {
    if s == 0 then ProductStage(tags, p.target, p.skipShared)
    else if s == 1 then PriorityStage(tags, p.floor)
    else CategoryStage(tags, p)
  }

  /**
   * The body of the loop in `addTest` for one method: product, then
   * priority, then category, stopping at the first stage that does not
   * pass.  A skip names a reason of the stage that produced it, and every
   * earlier stage passed; an exception comes from the priority stage after
   * the product stage passed; the method passes only if every stage does.
   */
  function Decide(tags: Option<MetaTag>, p: Policy): (v: Verdict)
    ensures v == Pass <==> StageVerdict(tags, p, 0) == Pass && StageVerdict(tags, p, 1) == Pass && StageVerdict(tags, p, 2) == Pass
    ensures v.Skip? ==> StageVerdict(tags, p, StageOf(v.reason)) == v
    ensures v.Skip? ==> forall s :: 0 <= s < StageOf(v.reason) ==> StageVerdict(tags, p, s) == Pass
    ensures v.Raise? <==> StageVerdict(tags, p, 0) == Pass && StageVerdict(tags, p, 1).Raise?
    ensures v.Raise? ==> v == StageVerdict(tags, p, 1)
  {
    var product := ProductStage(tags, p.target, p.skipShared);
    if !product.Pass? then product
    else
      var priority := PriorityStage(tags, p.floor);
      if !priority.Pass? then priority
      else CategoryStage(tags, p)
  }

  /**
   * Once the product stage skips, no later stage is consulted: the
   * priority and category settings cannot change the verdict.
   */
  lemma ProductSkipIgnoresLaterStages(tags: Option<MetaTag>, p: Policy, q: Policy)
    requires ProductStage(tags, p.target, p.skipShared).Skip?
    requires q.target == p.target && q.skipShared == p.skipShared
    ensures Decide(tags, q) == Decide(tags, p) == ProductStage(tags, p.target, p.skipShared)
  {
  }

  /** Once the priority stage skips or raises, the category settings cannot change the verdict. */
  lemma PriorityStopIgnoresCategoryStage(tags: Option<MetaTag>, p: Policy, q: Policy)
    requires ProductStage(tags, p.target, p.skipShared) == Pass
    requires PriorityStage(tags, p.floor) != Pass
    requires q.target == p.target && q.skipShared == p.skipShared && q.floor == p.floor
    ensures Decide(tags, q) == Decide(tags, p) == PriorityStage(tags, p.floor)
  {
  }

  /** An untagged method is skipped as shared whenever a target is set and shared tests are skipped. */
  lemma UntaggedSkippedAsShared(p: Policy)
    requires p.target.Some? && p.skipShared
    ensures Decide(None, p) == Skip(SharedExcluded)
  {
  }

  /**
   * With the product stage passing and a positive floor, the priority
   * stage stops the method exactly when its priority is absent, negative
   * or above the floor.
   */
  lemma PriorityStageStopsIff(tags: Option<MetaTag>, p: Policy)
    requires ProductStage(tags, p.target, p.skipShared) == Pass
    requires p.floor > 0
    ensures (Decide(tags, p).Skip? && StageOf(Decide(tags, p).reason) == 1) || Decide(tags, p).Raise?
        <==> tags.None? || tags.value.priority.None? || tags.value.priority.value < 0 || tags.value.priority.value > p.floor
  {
    StagesAgreeWithFilterSystem(tags, p);
  }

  // ---------------------------------------------------------------------
  // Test cases as attribute tables
  // ---------------------------------------------------------------------

  /** What running a method does: the original body, or the skip wrapper with its reason. */
  datatype Outcome = Run | Skipped(reason: FilterReason)

  /**
   * An attribute of a test case, as listed by `dir()`: a non-callable value,
   * or a function with its outcome.  A function's attribute name is its
   * `__name__`.
   */
  datatype Attr = Plain(name: string) | Callable(fn: TestFunction, outcome: Outcome) {
    function Name(): string {
      if Plain? then name else fn.name
    }
  }

  /**
   * What `addTest` receives: a `TestCase` instance with its attributes in
   * `dir()` order, or any other object, with whether it is callable and
   * whether it is a `TestCase` or `TestSuite` class rather than an instance.
   */
  datatype Test = Case(attrs: seq<Attr>) | Other(id: string, callable: bool, testClass: bool)

  /** Attribute names of one object are distinct. */
  predicate DistinctNames(attrs: seq<Attr>) {
    forall i, j :: 0 <= i < j < |attrs| ==> attrs[i].Name() != attrs[j].Name()
  }

  /** `func.startswith("test_")` */
  predicate IsTestName(name: string) {
    "test_" <= name
  }

  /** Attributes that are callable and whose name starts with `test_` are filtered. */
  predicate IsCandidate(a: Attr) {
    a.Callable? && IsTestName(a.fn.name)
  }

  /** Position of the first attribute at or after `k` called `name`, the lookup behind `getattr`. */
  function IndexFrom(attrs: seq<Attr>, name: string, k: nat): (r: Option<nat>)
    requires k <= |attrs|
    ensures r.Some? ==> k <= r.value < |attrs| && attrs[r.value].Name() == name
    ensures r.Some? ==> forall i :: k <= i < r.value ==> attrs[i].Name() != name
    ensures r.None? ==> forall i :: k <= i < |attrs| ==> attrs[i].Name() != name
    decreases |attrs| - k
  {
    if k == |attrs| then None
    else if attrs[k].Name() == name then Some(k)
    else IndexFrom(attrs, name, k + 1)
  }

  /**
   * `setattr(test, name, x)`: the attribute called `name` becomes `x` and
   * nothing else changes; an absent name is added.
   */
  function SetAttr(attrs: seq<Attr>, name: string, x: Attr): (r: seq<Attr>)
    requires x.Name() == name
    ensures forall i :: 0 <= i < |attrs| && attrs[i].Name() != name ==> i < |r| && r[i] == attrs[i]
    ensures (exists i :: 0 <= i < |attrs| && attrs[i].Name() == name) ==> |r| == |attrs|
    ensures (forall i :: 0 <= i < |attrs| ==> attrs[i].Name() != name) ==> r == attrs + [x]
    ensures DistinctNames(attrs) ==> DistinctNames(r)
    ensures DistinctNames(attrs) ==> forall i :: 0 <= i < |attrs| && attrs[i].Name() == name ==> r == attrs[i := x]
  {
    match IndexFrom(attrs, name, 0)
    case Some(i) => attrs[i := x]
    case None => attrs + [x]
  }

  /**
   * `_decorate_skip`: the skip wrapper keeps the method's `__name__` and,
   * copied by `functools.wraps`, its `tags`.
   */
  function SkipWrapper(m: Attr, reason: FilterReason): (w: Attr)
    requires m.Callable?
    ensures w.Callable? && w.fn == m.fn && w.outcome == Skipped(reason)
  {
    Callable(m.fn, Skipped(reason))
  }

  /**
   * `_mark_for_skip`: the method is replaced, under its own name, by a skip
   * wrapper carrying the reason; no other attribute changes.
   */
  function MarkForSkip(attrs: seq<Attr>, m: Attr, reason: FilterReason): (r: seq<Attr>)
    requires m.Callable?
    ensures forall i :: 0 <= i < |attrs| && attrs[i].Name() != m.Name() ==> i < |r| && r[i] == attrs[i]
    ensures DistinctNames(attrs) ==> DistinctNames(r)
    ensures DistinctNames(attrs) ==>
      forall i :: 0 <= i < |attrs| && attrs[i].Name() == m.Name() ==>
        r == attrs[i := Callable(m.fn, Skipped(reason))]
  {
    SetAttr(attrs, m.fn.name, SkipWrapper(m, reason))
  }

  /**
   * Indices, from `k` on, of the attributes `addTest` filters, in `dir()`
   * order: every one is a candidate, they increase, and none is missed.
   */
  function CandidatesFrom(attrs: seq<Attr>, k: nat): (idx: seq<nat>)
    requires k <= |attrs|
    ensures forall j :: 0 <= j < |idx| ==> k <= idx[j] < |attrs| && IsCandidate(attrs[idx[j]])
    ensures forall j, j' :: 0 <= j < j' < |idx| ==> idx[j] < idx[j']
    ensures forall i :: k <= i < |attrs| && IsCandidate(attrs[i]) ==> i in idx
    decreases |attrs| - k
  {
    if k == |attrs| then []
    else if IsCandidate(attrs[k]) then [k] + CandidatesFrom(attrs, k + 1)
    else CandidatesFrom(attrs, k + 1)
  }

  /** The list comprehension of `addTest`: names of the callable `test_*` attributes. */
  function TestMethods(attrs: seq<Attr>): (names: seq<string>)
    ensures |names| == |CandidatesFrom(attrs, 0)|
    ensures forall j :: 0 <= j < |names| ==> names[j] == attrs[CandidatesFrom(attrs, 0)[j]].Name()
    ensures forall n :: n in names <==> exists i :: 0 <= i < |attrs| && IsCandidate(attrs[i]) && attrs[i].Name() == n
  {
    var idx := CandidatesFrom(attrs, 0);
    seq(|idx|, j requires 0 <= j < |idx| => attrs[idx[j]].Name())
  }

  // ---------------------------------------------------------------------
  // Reference definition of filtering one test case
  // ---------------------------------------------------------------------

  /** The attribute once its pipeline verdict is applied (an exception leaves it as it was). */
  function Settle(a: Attr, p: Policy): (r: Attr)
    ensures r.Name() == a.Name() && r.Callable? == a.Callable?
    ensures r.Callable? ==> r.fn == a.fn
    ensures r != a ==> IsCandidate(a) && Decide(a.fn.tags, p).Skip? && r.outcome == Skipped(Decide(a.fn.tags, p).reason)
    ensures IsCandidate(a) && Decide(a.fn.tags, p).Skip? ==> r.outcome == Skipped(Decide(a.fn.tags, p).reason)
  {
    if IsCandidate(a) && Decide(a.fn.tags, p).Skip? then SkipWrapper(a, Decide(a.fn.tags, p).reason)
    else a
  }

  /** The pipeline raises on this attribute. */
  predicate Raises(a: Attr, p: Policy) {
    IsCandidate(a) && Decide(a.fn.tags, p).Raise?
  }

  /** The first attribute, at or after `k`, on which the pipeline raises. */
  function FirstRaise(attrs: seq<Attr>, p: Policy, k: nat): (r: Option<nat>)
    requires k <= |attrs|
    ensures r.Some? ==> k <= r.value < |attrs| && Raises(attrs[r.value], p)
    ensures r.Some? ==> forall i :: k <= i < r.value ==> !Raises(attrs[i], p)
    ensures r.None? ==> forall i :: k <= i < |attrs| ==> !Raises(attrs[i], p)
    decreases |attrs| - k
  {
    if k == |attrs| then None
    else if Raises(attrs[k], p) then Some(k)
    else FirstRaise(attrs, p, k + 1)
  }

  /** The attributes with the first `b` of them settled and the rest untouched. */
  function Partial(attrs: seq<Attr>, p: Policy, b: nat): (r: seq<Attr>)
    ensures |r| == |attrs|
    ensures forall i :: 0 <= i < |attrs| ==> r[i] == if i < b then Settle(attrs[i], p) else attrs[i]
  {
    seq(|attrs|, i requires 0 <= i < |attrs| => if i < b then Settle(attrs[i], p) else attrs[i])
  }

  /** Filtering one test case either completes, or stops at the exception of one method. */
  datatype CaseResult = Filtered(attrs: seq<Attr>) | Aborted(error: Error, at: nat, attrs: seq<Attr>)

  /**
   * Filtering one test case, declaratively: with no exception every
   * attribute is settled; otherwise the first raising method in `dir()`
   * order stops the loop, every attribute before it is settled and it and
   * every later one is untouched.  Names, functions and tags never change.
   */
  function FilterCase(attrs: seq<Attr>, p: Policy): (r: CaseResult)
    ensures |r.attrs| == |attrs|
    ensures forall i :: 0 <= i < |attrs| ==> r.attrs[i].Name() == attrs[i].Name() && r.attrs[i].Callable? == attrs[i].Callable?
    ensures forall i :: 0 <= i < |attrs| && attrs[i].Callable? ==> r.attrs[i].fn == attrs[i].fn
    ensures r.Filtered? <==> forall i :: 0 <= i < |attrs| ==> !Raises(attrs[i], p)
    ensures r.Filtered? ==> forall i :: 0 <= i < |attrs| ==> r.attrs[i] == Settle(attrs[i], p)
    ensures r.Aborted? ==> r.at < |attrs| && Raises(attrs[r.at], p) && r.error == Decide(attrs[r.at].fn.tags, p).error
    ensures r.Aborted? ==> forall i :: 0 <= i < r.at ==> !Raises(attrs[i], p)
    ensures r.Aborted? ==> forall i :: 0 <= i < |attrs| ==> r.attrs[i] == if i < r.at then Settle(attrs[i], p) else attrs[i]
  {
    match FirstRaise(attrs, p, 0)
    case None => Filtered(Partial(attrs, p, |attrs|))
    case Some(k) => Aborted(Decide(attrs[k].fn.tags, p).error, k, Partial(attrs, p, k))
  }

  /**
   * Only callable `test_*` attributes can change, and only by becoming a
   * skip wrapper whose reason is the pipeline's first skip; a method every
   * stage passes is left unmodified.
   */
  lemma OnlySkippedCandidatesChange(attrs: seq<Attr>, p: Policy, i: nat)
    requires i < |attrs|
    ensures !IsCandidate(attrs[i]) ==> FilterCase(attrs, p).attrs[i] == attrs[i]
    ensures IsCandidate(attrs[i]) && Decide(attrs[i].fn.tags, p) == Pass ==> FilterCase(attrs, p).attrs[i] == attrs[i]
    ensures FilterCase(attrs, p).attrs[i] != attrs[i] ==>
              FilterCase(attrs, p).attrs[i] == Callable(attrs[i].fn, Skipped(Decide(attrs[i].fn.tags, p).reason))
  {
  }

  /** Settling an attribute twice is settling it once. */
  lemma SettleIdempotent(a: Attr, p: Policy)
    ensures Settle(Settle(a, p), p) == Settle(a, p)
    ensures Raises(Settle(a, p), p) == Raises(a, p)
  {
  }

  /**
   * Filtering a test case a second time, with the same policy, reaches the
   * same verdicts, reasons and exception as the first time.
   */
  lemma FilterCaseIdempotent(attrs: seq<Attr>, p: Policy)
    ensures FilterCase(FilterCase(attrs, p).attrs, p) == FilterCase(attrs, p)
  {
    var r := FilterCase(attrs, p);
    var r2 := FilterCase(r.attrs, p);
    forall i | 0 <= i < |attrs|
      ensures Raises(r.attrs[i], p) == Raises(attrs[i], p)
      ensures Settle(r.attrs[i], p) == Settle(attrs[i], p)
    {
      SettleIdempotent(attrs[i], p);
    }
    if r.Aborted? {
      assert r2.Aborted? by {
        assert Raises(r.attrs[r.at], p);
      }
      assert r2.at >= r.at by {
        assert forall i :: 0 <= i < r.at ==> !Raises(r.attrs[i], p);
      }
      assert r2.at <= r.at by {
        assert Raises(r.attrs[r.at], p);
      }
      assert r2.attrs == r.attrs;
    } else {
      assert r2.attrs == r.attrs;
    }
  }

  // ---------------------------------------------------------------------
  // addTest
  // ---------------------------------------------------------------------

  /** The result of `addTest`: the suite's tests afterwards, or the exception with the test object as it was left. */
  datatype AddResult = Added(tests: seq<Test>) | Raised(error: Error, test: Test)

  /** The stage bound of the `addTest` loop after `j` test methods. */
  function Bound(idx: seq<nat>, j: nat, n: nat): nat {
    if j < |idx| then idx[j] else n
  }

  /** Between two consecutive test methods there is no candidate. */
  lemma NoCandidateBefore(attrs: seq<Attr>, j: nat, i: nat)
    requires j <= |CandidatesFrom(attrs, 0)|
    requires i < Bound(CandidatesFrom(attrs, 0), j, |attrs|) && i < |attrs|
    requires j > 0 ==> CandidatesFrom(attrs, 0)[j - 1] < i
    ensures !IsCandidate(attrs[i])
  {
    var idx := CandidatesFrom(attrs, 0);
    forall m | 0 <= m < |idx|
      ensures idx[m] != i
    {
      if m < j {
        assert idx[m] <= idx[j - 1];
      } else {
        assert idx[j] <= idx[m];
      }
    }
    assert i !in idx;
  }

  /** Attributes that are not candidates are left as they are, so settling them is a no-op. */
  lemma PartialOverNonCandidates(attrs: seq<Attr>, p: Policy, b: nat, b': nat)
    requires b <= b' <= |attrs|
    requires forall i :: b <= i < b' ==> !IsCandidate(attrs[i]) || Settle(attrs[i], p) == attrs[i]
    ensures Partial(attrs, p, b) == Partial(attrs, p, b')
  {
  }

  /** Settling keeps every name, so the partially filtered object keeps distinct names. */
  lemma PartialNames(attrs: seq<Attr>, p: Policy, b: nat)
    requires DistinctNames(attrs)
    ensures forall i :: 0 <= i < |attrs| ==> Partial(attrs, p, b)[i].Name() == attrs[i].Name()
    ensures DistinctNames(Partial(attrs, p, b))
  {
  }

  /** In an object with distinct names, `getattr` by name finds the attribute's own position. */
  lemma LookupFindsPosition(attrs: seq<Attr>, k: nat)
    requires DistinctNames(attrs) && k < |attrs|
    ensures IndexFrom(attrs, attrs[k].Name(), 0) == Some(k)
  {
  }

  /** Wrapping the next skipped method settles one more attribute. */
  lemma SkipStep(attrs: seq<Attr>, p: Policy, k: nat, reason: FilterReason)
    requires DistinctNames(attrs) && k < |attrs| && IsCandidate(attrs[k])
    requires Decide(attrs[k].fn.tags, p) == Skip(reason)
    ensures MarkForSkip(Partial(attrs, p, k), attrs[k], reason) == Partial(attrs, p, k + 1)
  {
    var cur := Partial(attrs, p, k);
    PartialNames(attrs, p, k);
    assert cur[k] == attrs[k];
    assert MarkForSkip(cur, attrs[k], reason) == cur[k := Callable(attrs[k].fn, Skipped(reason))];
  }

  /** A method every stage passes is left as it is. */
  lemma PassStep(attrs: seq<Attr>, p: Policy, k: nat)
    requires k < |attrs| && IsCandidate(attrs[k]) && Decide(attrs[k].fn.tags, p) == Pass
    ensures Partial(attrs, p, k) == Partial(attrs, p, k + 1)
  {
  }

  /** The first raising method in `dir()` order is where filtering stops. */
  lemma RaiseStep(attrs: seq<Attr>, p: Policy, k: nat)
    requires k < |attrs| && Raises(attrs[k], p)
    requires forall i :: 0 <= i < k ==> !Raises(attrs[i], p)
    ensures FilterCase(attrs, p) == Aborted(Decide(attrs[k].fn.tags, p).error, k, Partial(attrs, p, k))
  {
    var r := FirstRaise(attrs, p, 0);
    assert r.Some? && r.value <= k;
  }

  /** Without a raising method, filtering completes with every attribute settled. */
  lemma CompleteStep(attrs: seq<Attr>, p: Policy)
    requires forall i :: 0 <= i < |attrs| ==> !Raises(attrs[i], p)
    ensures FilterCase(attrs, p) == Filtered(Partial(attrs, p, |attrs|))
  {
    assert FirstRaise(attrs, p, 0).None?;
  }

  /** No attribute before position `b` raises. */
  predicate NoRaiseBefore(attrs: seq<Attr>, p: Policy, b: nat) {
    forall i :: 0 <= i < b && i < |attrs| ==> !Raises(attrs[i], p)
  }

  /**
   * Past the `j`-th test method, the attributes up to the next one are not
   * candidates: settling them changes nothing and none of them raises.
   */
  lemma AdvanceBound(attrs: seq<Attr>, p: Policy, j: nat, start: nat)
    requires j <= |CandidatesFrom(attrs, 0)|
    requires start == if j == 0 then 0 else CandidatesFrom(attrs, 0)[j - 1] + 1
    requires NoRaiseBefore(attrs, p, start)
    ensures Partial(attrs, p, start) == Partial(attrs, p, Bound(CandidatesFrom(attrs, 0), j, |attrs|))
    ensures NoRaiseBefore(attrs, p, Bound(CandidatesFrom(attrs, 0), j, |attrs|))
  {
    var idx := CandidatesFrom(attrs, 0);
    var b := Bound(idx, j, |attrs|);
    if 0 < j < |idx| {
      assert idx[j - 1] < idx[j];
    }
    forall i | start <= i < b
      ensures !IsCandidate(attrs[i])
    {
      NoCandidateBefore(attrs, j, i);
    }
    PartialOverNonCandidates(attrs, p, start, b);
  }

  /** The state of the `addTest` loop before its `j`-th test method. */
  predicate LoopState(attrs: seq<Attr>, p: Policy, j: nat, cur: seq<Attr>) {
    && j <= |CandidatesFrom(attrs, 0)|
    && cur == Partial(attrs, p, Bound(CandidatesFrom(attrs, 0), j, |attrs|))
    && NoRaiseBefore(attrs, p, Bound(CandidatesFrom(attrs, 0), j, |attrs|))
  }

  /**
   * `getattr` by the `j`-th test method's name lands on the `j`-th
   * candidate, which the loop has not touched yet.
   */
  lemma LookupStep(attrs: seq<Attr>, p: Policy, j: nat, cur: seq<Attr>)
    requires DistinctNames(attrs) && j < |CandidatesFrom(attrs, 0)| && LoopState(attrs, p, j, cur)
    ensures var k := CandidatesFrom(attrs, 0)[j];
      && IndexFrom(cur, TestMethods(attrs)[j], 0) == Some(k)
      && cur[k] == attrs[k] && IsCandidate(attrs[k])
  {
    var k := CandidatesFrom(attrs, 0)[j];
    PartialNames(attrs, p, k);
    LookupFindsPosition(cur, k);
  }

  /**
   * Once the `j`-th test method is settled without an exception, the loop
   * is in its state before the next test method.
   */
  lemma Continues(attrs: seq<Attr>, p: Policy, j: nat, cur: seq<Attr>)
    requires j < |CandidatesFrom(attrs, 0)| && LoopState(attrs, p, j, cur)
    requires !Raises(attrs[CandidatesFrom(attrs, 0)[j]], p)
    ensures LoopState(attrs, p, j + 1, Partial(attrs, p, CandidatesFrom(attrs, 0)[j] + 1))
  {
    var k := CandidatesFrom(attrs, 0)[j];
    assert NoRaiseBefore(attrs, p, k + 1);
    AdvanceBound(attrs, p, j + 1, k + 1);
  }

  /** An exception at the `j`-th test method is where `FilterCase` stops. */
  lemma StopStep(attrs: seq<Attr>, p: Policy, j: nat, cur: seq<Attr>)
    requires j < |CandidatesFrom(attrs, 0)| && LoopState(attrs, p, j, cur)
    requires Raises(attrs[CandidatesFrom(attrs, 0)[j]], p)
    ensures var k := CandidatesFrom(attrs, 0)[j];
      FilterCase(attrs, p) == Aborted(Decide(attrs[k].fn.tags, p).error, k, cur)
  {
    RaiseStep(attrs, p, CandidatesFrom(attrs, 0)[j]);
  }

  /**
   * One iteration of the `addTest` loop, for the `j`-th test method: look
   * the method up by name (`getattr`), run the pipeline, and on a skip
   * `setattr` its wrapper under the same name.  On an exception it returns
   * the position of the raising method.
   */
  method VisitMethod(cur: seq<Attr>, name: string, p: Policy, ghost attrs: seq<Attr>, ghost j: nat)
    returns (pos: nat, next: seq<Attr>, error: Option<Error>)
    requires DistinctNames(attrs) && j < |CandidatesFrom(attrs, 0)|
    requires name == TestMethods(attrs)[j] && LoopState(attrs, p, j, cur)
    ensures error.None? ==> LoopState(attrs, p, j + 1, next)
    ensures error.Some? ==> FilterCase(attrs, p) == Aborted(error.value, pos, cur)
  {
    LookupStep(attrs, p, j, cur);
    var found := IndexFrom(cur, name, 0);
    pos := found.value;
    var m := cur[pos];
    match Decide(m.fn.tags, p) {
      case Pass =>
        PassStep(attrs, p, pos);
        Continues(attrs, p, j, cur);
        next, error := cur, None;
      case Skip(reason) =>
        SkipStep(attrs, p, pos, reason);
        Continues(attrs, p, j, cur);
        next, error := MarkForSkip(cur, m, reason), None;
      case Raise(e) =>
        StopStep(attrs, p, j, cur);
        next, error := cur, Some(e);
    }
  }

  /**
   * The loop of `addTest` over one test case: list the `test_*` methods,
   * then visit them by name in `dir()` order until one raises.  It computes
   * exactly the declarative `FilterCase`.
   */
  method FilterMethods(attrs: seq<Attr>, p: Policy) returns (r: CaseResult)
    requires DistinctNames(attrs)
    ensures r == FilterCase(attrs, p)
  {
    var names := TestMethods(attrs);
    ghost var idx := CandidatesFrom(attrs, 0);
    AdvanceBound(attrs, p, 0, 0);
    var cur := attrs;
    var j := 0;
    while j < |names|
      invariant 0 <= j <= |names|
      invariant LoopState(attrs, p, j, cur)
    {
      var pos, next, error := VisitMethod(cur, names[j], p, attrs, j);
      if error.Some? {
        return Aborted(error.value, pos, cur);
      }
      cur := next;
      j := j + 1;
    }
    CompleteStep(attrs, p);
    return Filtered(cur);
  }

  /**
   * `FilterableTestSuite.addTest(test)` with the class-level configuration
   * `config`: fails its assertion without a configuration; hands any other
   * object to `TestSuite.addTest`, which rejects a test class and a
   * non-callable object and adds the rest unchanged; otherwise filters the test case's methods and
   * adds it, unless a method raises, in which case the exception leaves the
   * suite as it was and the test object with the methods before that one
   * already wrapped.
   */
  method AddTest(config: Option<Policy>, suite: seq<Test>, test: Test) returns (r: AddResult)
    requires test.Case? ==> DistinctNames(test.attrs)
    ensures config.None? ==> r == Raised(ConfigurationNotAvailable, test)
    ensures config.Some? && test.Other? && test.testClass ==> r == Raised(UninstantiatedTest, test)
    ensures config.Some? && test.Other? && !test.testClass && !test.callable ==> r == Raised(NotCallable, test)
    ensures config.Some? && test.Other? && !test.testClass && test.callable ==> r == Added(suite + [test])
    ensures config.Some? && test.Case? && FilterCase(test.attrs, config.value).Filtered? ==>
              r == Added(suite + [Case(FilterCase(test.attrs, config.value).attrs)])
    ensures config.Some? && test.Case? && FilterCase(test.attrs, config.value).Aborted? ==>
              r == Raised(FilterCase(test.attrs, config.value).error, Case(FilterCase(test.attrs, config.value).attrs))
  {
    if config.None? {
      return Raised(ConfigurationNotAvailable, test);
    }
    if test.Other? {
      if test.testClass {
        return Raised(UninstantiatedTest, test);
      }
      if !test.callable {
        return Raised(NotCallable, test);
      }
      return Added(suite + [test]);
    }
    var filtered := FilterMethods(test.attrs, config.value);
    match filtered {
      case Filtered(attrs) =>
        r := Added(suite + [Case(attrs)]);
      case Aborted(e, _, attrs) =>
        r := Raised(e, Case(attrs));
    }
  }
}

=== FILE: tags.dfy ===
/**
 * Tag metadata attached to test functions by the `tag` decorator:
 * an optional product, an optional priority and a set of categories.
 */
module Tags {
  import opened Wrappers

  /** The closed `ProductTag` enumeration. */
  datatype Product = ACE | BME | STL

  /** The value of each enumeration member: its own three-letter spelling. */
  function Value(p: Product): (s: string)
    ensures |s| == 3
  {
    match p
    case ACE => "ACE"
    case BME => "BME"
    case STL => "STL"
  }

  /**
   * Enumeration lookup by value, `ProductTag(s)`.  None stands for the
   * ValueError an unknown value raises.
   */
  function FromValue(s: string): (r: Option<Product>)
    ensures r.Some? ==> Value(r.value) == s
    ensures r.None? ==> forall p: Product :: Value(p) != s
  {
    if s == "ACE" then Some(ACE)
    else if s == "BME" then Some(BME)
    else if s == "STL" then Some(STL)
    else None
  }

  /** Every member is found again from its value, and the members are exactly ACE, BME and STL. */
  lemma ProductRoundTrip(p: Product)
    ensures FromValue(Value(p)) == Some(p)
    ensures p == ACE || p == BME || p == STL
  {
  }

  /** Distinct members have distinct values. */
  lemma ValueInjective(p: Product, q: Product)
    ensures Value(p) == Value(q) <==> p == q
  {
    ProductRoundTrip(p);
    ProductRoundTrip(q);
  }

  /** `MetaTag`: product None means a shared test, priority None means unprioritised. */
  datatype MetaTag = MetaTag(product: Option<Product>, priority: Option<int>, categories: set<string>)

  /** A freshly constructed `MetaTag`. */
  function NewMetaTag(): (t: MetaTag)
    ensures t.product.None? && t.priority.None? && t.categories == {}
  {
    MetaTag(None, None, {})
  }

  /**
   * A Python test function as far as tagging is concerned: its `__name__`
   * and its optional `tags` attribute.
   */
  datatype TestFunction = TestFunction(name: string, tags: Option<MetaTag>)

  /** The metadata object the decorator updates: the attached one, or a fresh one. */
  function Existing(fn: TestFunction): MetaTag {
    fn.tags.GetOr(NewMetaTag())
  }

  /**
   * `tag(*categories, product=product, priority=priority)(fn)`: product and
   * priority are overwritten by this call's arguments (an omitted one
   * resets the field to None), categories are added to the existing set,
   * and the same function is returned with the metadata attached.
   */
  function Tag(fn: TestFunction, categories: seq<string>, product: Option<Product>, priority: Option<int>): (r: TestFunction)
    ensures r.name == fn.name
    ensures r.tags.Some?
    ensures r.tags.value.product == product && r.tags.value.priority == priority
    ensures forall c :: c in r.tags.value.categories <==> c in Existing(fn).categories || c in categories
  {
    var data := Existing(fn);
    fn.(tags := Some(data.(product := product, priority := priority,
                           categories := data.categories + set c | c in categories)))
  }

  /** Categories never shrink under tagging. */
  lemma TagKeepsCategories(fn: TestFunction, categories: seq<string>, product: Option<Product>, priority: Option<int>)
    requires fn.tags.Some?
    ensures fn.tags.value.categories <= Tag(fn, categories, product, priority).tags.value.categories
  {
  }

  /**
   * Stacking two decorators equals one decorator carrying both category
   * lists, with the outer (later) call's product and priority.
   */
  lemma TagTwice(fn: TestFunction, inner: seq<string>, outer: seq<string>,
                 p1: Option<Product>, q1: Option<int>, p2: Option<Product>, q2: Option<int>)
    ensures Tag(Tag(fn, inner, p1, q1), outer, p2, q2) == Tag(fn, inner + outer, p2, q2)
  {
    var left := Tag(Tag(fn, inner, p1, q1), outer, p2, q2);
    var right := Tag(fn, inner + outer, p2, q2);
    assert left.tags.value.categories == right.tags.value.categories;
  }

  /** Applying the same decorator twice changes nothing further. */
  lemma TagIdempotent(fn: TestFunction, categories: seq<string>, product: Option<Product>, priority: Option<int>)
    ensures Tag(Tag(fn, categories, product, priority), categories, product, priority)
         == Tag(fn, categories, product, priority)
  {
    var once := Tag(fn, categories, product, priority);
    assert Tag(once, categories, product, priority).tags.value.categories == once.tags.value.categories;
  }
}

=== FILE: wrappers.dfy ===
/** Optional values: Python's `None` versus a present value. */
module Wrappers {

  datatype Option<+T> = None | Some(value: T) {

    /** Returns the value in Some, or `default` when None */
    function GetOr(default: T): T {
      match this
      case Some(v) => v
      case None() => default
    }
  }
}
